=== FILE: README.md ===
# Deferred selection strategy: a Dafny model

DevExtreme's data widgets can keep their selection in "deferred" mode. In that mode the
widget does not store the set of selected keys. It stores `selectionFilter`, a filter
expression written as nested JSON arrays. `null` means every row is selected and `[]` means
none is. A leaf `[field, "=", value]` selects one key. Compounds join sub-expressions with
`"and"` / `"or"` tokens, and `["!", f]` negates `f`. Selecting or deselecting a key rewrites
this expression in place. The strategy builds the key's predicate and skips it when it is
already present. Otherwise it cancels the opposite term if one is there. For a single key
that cancellation is the whole change; only select-all against a base filter still appends
after cancelling. If nothing was cancelled, it joins the new term with `"or"` (select) or
`"and"` (deselect), nesting the old compound when the operator changes. The result is stored
in normalized form.

This project models that strategy in `js/ui/selection/selection.strategy.deferred.js` as pure
functions over an immutable JSON datatype, and proves properties of it.

- `json.dfy` (`Json`): JSON values `J`, JavaScript truthiness, the leaf and negation shapes.
  The source compares filters with `JSON.stringify`, and for these values that is datatype
  equality.
- `filter_shape.dfy` (`FilterShape`): denormalize/normalize, the filter grammar `WfExpr`, and
  operator homogeneity at every nesting level, including inside negations `["!", x]`.
- `sub_filter.dfy` (`SubFilter`): first-match lookup of a top-level term, and the
  "is the last term" test, both as written and corrected.
- `merge.dfy` (`Merge`): operator joining, inverse cancellation, and the merge-and-commit step,
  with the invariants the merge preserves.
- `deferred_strategy.dfy` (`DeferredStrategy`): the widget options as a record, key predicates,
  and the public operations. Each operation returns the updated options.
- `properties.dfy` (`StrategyProperties`): properties that relate several operations:
  idempotence and where it fails, cancel-and-restore, operator nesting, select-all and the
  tri-state, and the exact disjunction that `setSelectedItems` stores.

## Model

| member | source | states |
|---|---|---|
| `DeferredStrategy.Conjunction` | js/ui/selection/selection.strategy.deferred.js:87-95 | For n key fields, the compound-key predicate has 2n-1 entries. Entry 2i is the leaf `[f_i, "=", key[f_i]]`, and every odd entry is `"and"`, so there is no trailing token. |
| `DeferredStrategy.ProcessSelectedItem` | js/ui/selection/selection.strategy.deferred.js:82-98 | A single key field gives the leaf `[field, "=", key]`. A field list gives the conjunction. Either way the predicate is a well-formed, homogeneous filter. |
| `FilterShape.Denormalize` | js/ui/selection/selection.strategy.deferred.js:155-160 | A leaf-like filter (element 0 a string) becomes the one-element sequence holding it. Any other filter is already the sequence of its terms. Its partners are `NormalizeDenormalize` and `DenormalizeCompound`. |
| `FilterShape.Normalize` | js/ui/selection/selection.strategy.deferred.js:193-198 | A one-element sequence collapses to its only term. Any other sequence is stored as the array of its terms. Its partner is `DenormalizeNormalize`. |
| `FilterShape.Sequence` | js/ui/selection/selection.strategy.deferred.js:166-168 | The merge works on the option read as a term sequence. `null` reads as no terms, and an array reads as its denormalized form. |
| `FilterShape.NormalizeDenormalize` | js/ui/selection/selection.strategy.deferred.js:155-160 | Normalizing a denormalized filter gives it back exactly when it is not a one-element array whose element is not a string. In particular this holds for every leaf-like filter whose first element is a string. |
| `FilterShape.DenormalizeNormalize` | js/ui/selection/selection.strategy.deferred.js:193-198 | Denormalizing a normalized compound of length other than one gives the compound back. |
| `FilterShape.DenormalizeCompound` | js/ui/selection/selection.strategy.deferred.js:155-160 | The denormalized form of a well-formed filter is a compound. Sub-expressions sit at even positions and operator tokens at odd ones. |
| `FilterShape.NormalizeWellFormed` | js/ui/selection/selection.strategy.deferred.js:193-198 | Collapsing a well-formed compound gives a well-formed filter, which is always an array. |
| `SubFilter.FindSubFilter` | js/ui/selection/selection.strategy.deferred.js:124-136 | Returns the index of the first top-level element equal to a truthy filter. Returns -1 exactly when there is no such element. |
| `SubFilter.HasSameFilter` | js/ui/selection/selection.strategy.deferred.js:120-122 | True exactly when the filter is truthy and is a top-level element. |
| `SubFilter.IsLastSubFilterAsWritten` | js/ui/selection/selection.strategy.deferred.js:138-143 | True exactly when the first occurrence of the filter is the last element. Also true on an empty sequence, where -1 equals length-1. |
| `SubFilter.IsLastSubFilter` | js/ui/selection/selection.strategy.deferred.js:138-143 | The corrected test: as written, or the filter equals the whole un-wrapped compound. |
| `Merge.AddFilterOperator` | js/ui/selection/selection.strategy.deferred.js:145-153 | An empty sequence is returned unchanged. A non-empty result ends with the operator. The old sequence is kept flat, or nested as one element exactly when element 1 is a different operator string. |
| `Merge.AppendHomogeneous` | js/ui/selection/selection.strategy.deferred.js:145-153 | After joining a homogeneous compound and appending, every top-level token is the new operator. |
| `Merge.RemoveInvertedFilter` | js/ui/selection/selection.strategy.deferred.js:200-219 | Reports a cancellation exactly when the inverse is the whole sequence or a top-level element. The whole sequence is cleared. Otherwise the first occurrence at i>0 goes together with entry i-1, and one at 0 goes together with entry 1. With no cancellation the sequence is unchanged. |
| `Merge.RemoveInvertedCompound` | js/ui/selection/selection.strategy.deferred.js:200-219 | A cancellation keeps a compound well formed and homogeneous. |
| `Merge.Rewrite` | js/ui/selection/selection.strategy.deferred.js:170-186 | An empty sequence becomes just the new term. A unique merge that cancels the inverse keeps only what is left, which is strictly shorter. In every other case the new term comes last, with the merge's operator token before it unless it is alone. |
| `Merge.Commit` | js/ui/selection/selection.strategy.deferred.js:188-190 | A compound is stored as a storable value. A selection never stores `[]`, and a deselection of a compound never stores `null`. `null` is stored exactly when a selection leaves no terms (or only `[]`). A single term is stored bare, and anything else as the array. |
| `Merge.AddSelectionFilter` | js/ui/selection/selection.strategy.deferred.js:162-191 | A term that is already a top-level element leaves the option unchanged. The result is again a storable filter. A selection never stores `[]` and a deselection never stores `null`. |
| `Merge.MergeHomogeneous` | js/ui/selection/selection.strategy.deferred.js:162-191 | A merge keeps every compound of the stored filter homogeneous, at every nesting level and under every negation. |
| `Merge.MergeAppends` | js/ui/selection/selection.strategy.deferred.js:175-190 | When neither the term nor its inverse is present, the merge joins and appends the term, then commits. |
| `Merge.MergeCancelsThenAppends` | js/ui/selection/selection.strategy.deferred.js:175-190 | A non-unique merge that cancels the inverse still joins and appends the term to what is left, then commits. This is the path select-all against a base filter takes. |
| `Merge.MergeCancels` | js/ui/selection/selection.strategy.deferred.js:175-190 | A unique merge that cancels the inverse commits what is left and appends nothing. |
| `DeferredStrategy.Toggle` | js/ui/selection/selection.strategy.deferred.js:100-110 | Merging one key's predicate as a unique term keeps the filter storable, leaves the base filter and key accessor unchanged, and keeps a homogeneous filter homogeneous. |
| `DeferredStrategy.AddSelectedItem` | js/ui/selection/selection.strategy.deferred.js:100-104 | Selecting a key whose predicate is already a top-level term changes nothing. The filter stays storable, the other options are unchanged, and `[]` is never stored. |
| `DeferredStrategy.RemoveSelectedItem` | js/ui/selection/selection.strategy.deferred.js:106-110 | Deselecting a key whose negated predicate is already present changes nothing. `null` is never stored. |
| `DeferredStrategy.ToggleEach` | js/ui/selection/selection.strategy.deferred.js:47-53 | Toggling keys in order keeps the filter storable and homogeneous. No keys means no change. |
| `DeferredStrategy.SelectedItemKeys` | js/ui/selection/selection.strategy.deferred.js:32-59 | Select-all without a base filter stores `null`, and deselect-all stores `[]`. With a base filter the merge result is storable, and deselect-all never stores `null`. Without keys, preserve leaves the options unchanged and otherwise the filter becomes `[]`. With keys the result is again storable. |
| `DeferredStrategy.SetSelectedItems` | js/ui/selection/selection.strategy.deferred.js:61-66 | No keys leaves `null` (everything selected). Otherwise the result is storable and not `[]`. |
| `DeferredStrategy.GetSelectAllStateAsWritten` | js/ui/selection/selection.strategy.deferred.js:221-240 | This holds for any stored falsy value or array, including arrays set directly by the host outside the merge's grammar. A falsy value gives true and `[]` gives false. A missing or empty base filter gives undefined. With a non-empty filter and a non-empty base filter, the answer is true exactly when the base filter's first occurrence is the last term. It is false exactly when that does not hold and `["!", base]` is last. It is undefined otherwise. |
| `DeferredStrategy.GetSelectAllState` | js/ui/selection/selection.strategy.deferred.js:221-240 | The corrected tri-state, for any stored falsy value or array. It has the same falsy, empty and no-base answers, and the same rule as the source with the corrected last-term test. So a stored filter equal to the base filter reads true, and one equal to `["!", base]` reads false. |
| `DeferredStrategy.IsItemKeySelected` | js/ui/selection/selection.strategy.deferred.js:72-80 | A falsy selection filter selects every item. Otherwise the data query evaluator decides. |
| `DeferredStrategy.Validate` | js/ui/selection/selection.strategy.deferred.js:112-118 | Fails with E1042 exactly when a key accessor is configured and returns `undefined`. |
| `StrategyProperties.ValidatedAccessorIsReady` | js/ui/selection/selection.strategy.deferred.js:112-118 | Among the accessor results the model represents (a field name, a field list, or `undefined`), a validated widget with an accessor can build key predicates. |
| `StrategyProperties.ToggleTwiceIsToggleOnce` | js/ui/selection/selection.strategy.deferred.js:168-173 | Suppose the first toggle of a single-field key cancels nothing. Then toggling the same key again gives the same options as toggling once. |
| `StrategyProperties.SelectAfterCancellationIsNotIdempotent` | js/ui/selection/selection.strategy.deferred.js:175-190 | From `["!", p]`, selecting k stores `null`. Selecting k again stores only `p`. |
| `StrategyProperties.CompoundKeySelectedTwice` | js/ui/selection/selection.strategy.deferred.js:155-160 | From an empty selection, selecting a compound key once stores F. Selecting it twice stores `[F, "or", F]`. |
| `StrategyProperties.RemoveThenAddRestoresNull` | js/ui/selection/selection.strategy.deferred.js:175-190 | From `null`, deselecting k stores `["!", p(k)]`, and selecting k again restores `null`. |
| `StrategyProperties.AddThenRemoveClears` | js/ui/selection/selection.strategy.deferred.js:162-191 | From `null` or `[]`, selecting k stores p(k), and deselecting it again stores `[]`. |
| `StrategyProperties.SelectDeselectSelect` | js/ui/selection/selection.strategy.deferred.js:145-153 | Select p1, deselect p2 and select p3 store `[[p1, "and", ["!", p2]], "or", p3]`. |
| `StrategyProperties.SelectAllThenDeselectAll` | js/ui/selection/selection.strategy.deferred.js:32-40 | With base filter b, select-all stores b, and the corrected tri-state reads true. A following deselect-all stores `["!", b]`, and the corrected tri-state reads false. |
| `StrategyProperties.SelectAllThenRemoveOneIsIndeterminate` | js/ui/selection/selection.strategy.deferred.js:221-240 | After select-all with a leaf base filter, deselecting one other key stores `[b, "and", ["!", p]]`, and the corrected tri-state reads undefined. |
| `StrategyProperties.ImplicitAndLastTermReadsAllSelected` | js/ui/selection/selection.strategy.deferred.js:229-232 | A stored array outside the merge's grammar is still read. With the implicit-`and` pair `[["a","=",1], ["b","=",2]]` and base `["b","=",2]`, the base is the last term, so both readings give true. |
| `StrategyProperties.SelectAllAfterRemoveOneIsNoOp` | js/ui/selection/selection.strategy.deferred.js:169-173 | After select-all with a leaf base filter and one deselection, a second select-all changes nothing, and the corrected tri-state still reads undefined. |
| `StrategyProperties.SelectAllCompoundBaseAsWritten` | js/ui/selection/selection.strategy.deferred.js:229-239 | With a compound base filter, select-all stores it whole. The source's tri-state then reads undefined, and the corrected one reads true. |
| `StrategyProperties.NullFilterSelectsEverything` | js/ui/selection/selection.strategy.deferred.js:72-77 | After select-all without a base filter, or `setSelectedItems([])`, every item is selected. |
| `StrategyProperties.ToggleEachJoins` | js/ui/selection/selection.strategy.deferred.js:47-53 | Toggling distinct single-field keys in order joins their terms as `[t1, op, t2, ...]`. |
| `StrategyProperties.SetSelectedItemsIsDisjunction` | js/ui/selection/selection.strategy.deferred.js:61-66 | For distinct single-field keys, the stored value is exactly the disjunction `[p1, "or", p2, ...]`. It is the bare leaf for one key and `null` for none. |
| `StrategyProperties.SelectedItemKeysIsJoin` | js/ui/selection/selection.strategy.deferred.js:42-53 | Without preserve, selecting distinct keys stores their disjunction. Deselecting stores the conjunction of their negations. |

## Left out

- `getSelectedItems` / `getSelectedItemKeys` are left out. They load data asynchronously through the data source, and that code is not part of this model.
- `IsItemKeySelected`: the non-null branch runs the external data query evaluator. Here it is the parameter `evaluate`. `isItemDataSelected` only forwards to it.
- `_setOption`, `onSelectionChanged` and `errors.Error` are widget plumbing. Setting an option is a record update, and the change event is not modelled. The error is the `Invalid("E1042")` result. The resolved Deferred that `selectedItemKeys` returns is not modelled.
- The source mutates the option array in place with `splice` and `push`. The model is functional. It stores the same final value only when no other party holds a reference to the array being changed. Change notifications that could depend on reference identity are not modelled.
- `SelectedItemKeys`: the model assumes that the `filter()` accessor returns an array nobody else shares, or a fresh one on every call. The source does not show whether that holds. Select-all stores the array `filter()` returned by reference (lines 39, 165, 185 and 188-190), and later merges edit the stored array in place (lines 150, 185, 206 and 212-214). If the array is shared and compound, a select-all followed by a deselect-all first empties it at line 206. It then pushes `["!", b]` into b itself at line 185, which makes the stored value cyclic, so the next `JSON.stringify` at line 126 throws. `SelectAllThenDeselectAll` and the ensures `o'.baseFilter == o.baseFilter` rest on the same assumption.
- `AddSelectionFilter`: the model requires the stored filter to be `null` or a well-formed filter, and the predicate to be well formed (`WfExpr`). Outside this grammar the source can store a non-array or throw. Filters with implicit `and` (adjacent sub-expressions with no token) are outside it.
- `SelectedItemKeys`: with a base filter, select-all requires that filter and the stored one to be well formed, as for the merge.
- `AddSelectedItem`, `RemoveSelectedItem` and `SetSelectedItems` require a configured key accessor that returns a field name or a field list. `validate` checks less than that: it rejects only an accessor that returns `undefined`. With no accessor the source throws a TypeError.
- `ValidatedAccessorIsReady`: the model represents only these accessor results: a string, a list of strings, and `undefined`. `validate` also passes a `null` or numeric result, and the source then builds `[null, "=", key]`, which `_denormalizeFilter` does not wrap. Those results are not modelled, so the lemma speaks only of the results that are.
- `ProcessSelectedItem`: an accessor that returns `undefined` is not modelled. The source does not throw there. It builds `[undefined, "=", key]`, and `_denormalizeFilter` does not wrap that, because element 0 is not a string. The stored filter then leaves the grammar above. `validate` rejects this configuration with E1042.
- `ProcessSelectedItem`: for a field-list key, the source reads `key[keyField[i]]`, which throws a TypeError when the key is `null` or `undefined`. The model does not model that error. It reads the missing fields as `null` (`Property`) and builds leaves whose value is `null`.
- `GetSelectAllStateAsWritten`, `GetSelectAllState`: a stored value that is truthy but not an array (a number, a string, an object) is not modelled. The source would read its `length` property. Falsy stored values (`null`, `false`, `0`, `""`) all read as true.
- JSON values: no floating point, no `undefined` distinct from `null`, no functions. Objects are maps, so key order, which `JSON.stringify` is sensitive to, is not modelled.
- `Property`: reading a field of a non-object key gives `null` (for example `"abc"["length"]` in JavaScript is 3).
- `js/viz/series/range_series.js` is left out: it is rendering glue over the SVG renderer and other series mixins. Its range computation and median helpers live in files that are not part of this model.

Where the code and the behaviour usually described for this strategy disagree, the model follows the code:

- Selecting the same key twice is not always a no-op. After a cancellation it is not (`SelectAfterCancellationIsNotIdempotent`), and for a compound key it is not (`CompoundKeySelectedTwice`).
- Select-all does not always reselect everything. With a leaf base filter b, select-all and then a deselection store `[b, "and", ["!", p]]`. A second select-all finds b as a top-level term and changes nothing, so the key stays deselected and the tri-state stays undefined (`SelectAllAfterRemoveOneIsNoOp`).
- Add-then-remove from `null` does not return to `null`. The merge reads `null` as `[]`, so the result is `[]` (`AddThenRemoveClears`). Remove-then-add from `null` does restore it (`RemoveThenAddRestoresNull`).

## Findings

| source | as written | input that shows it | evidently intended | confidence | as-written member | corrected member |
|---|---|---|---|---|---|---|
| js/ui/selection/selection.strategy.deferred.js:138-143 | `_isLastSubFilter` only looks among the top-level elements of the denormalized selection filter. After select-all, a compound base filter is stored whole and not wrapped, so it is never one of its own elements. | base filter `[["a","=",1],"and",["b","=",2]]`, selection `null`; `selectedItemKeys([], false, false, true)`, then `getSelectAllState()` returns `undefined` | `true`: everything matching the base filter is selected | not executed; high (the wrapped leaf case returns `true`) | `StrategyProperties.SelectAllCompoundBaseAsWritten` | `DeferredStrategy.GetSelectAllState` |

=== FILE: deferred_strategy.dfy ===
/**
  The deferred selection strategy of a data widget: the selection is not a set of keys
  but the filter expression `selectionFilter`, rewritten as keys are selected and
  deselected. Each operation takes the widget's options and returns the updated ones.
 */
module DeferredStrategy {
  import opened Json
  import opened FilterShape
  import opened SubFilter
  import opened Merge

  datatype Option<T> = None | Some(value: T)

  /** What the `key` accessor returns: one key field, or the list of fields of a compound key. */
  datatype KeyField = Field(name: string) | Fields(names: seq<string>)

  /** The `key` option: absent, or an accessor whose result may be `undefined` (`None`). */
  datatype KeyAccessor = NoAccessor | Accessor(result: Option<KeyField>)

  /**
    The options the strategy reads and writes. `baseFilter` is the result of the `filter()`
    accessor (the data source filter; `None` for `null`/`undefined`).
   */
  datatype Options = Options(selectionFilter: J, baseFilter: Option<seq<J>>, key: KeyAccessor)

  /** The answer of `getSelectAllState`: `true`, `false` or `undefined`. */
  datatype SelectAllState = AllSelected | NoneSelected | Indeterminate

  /** The outcome of `validate`: passes, or throws the error with the given code. */
  datatype Validation = Valid | Invalid(code: string)

  /** The strategy can build predicates: an accessor is configured and returns a key field. */
  predicate KeyReady(o: Options) {
    o.key.Accessor? && o.key.result.Some?
  }

  /** The options every selection operation keeps: a storable selection filter and a usable key. */
  predicate Ready(o: Options) {
    KeyReady(o) && WfStored(o.selectionFilter)
  }

  /** The compound-key conjunction of `_processSelectedItem`: one leaf per field, joined by `"and"`. */
  function Conjunction(names: seq<string>, key: J): (p: seq<J>)
    ensures |p| == if |names| == 0 then 0 else 2 * |names| - 1
    ensures forall i | 0 <= i < |names| :: p[2 * i] == Leaf(names[i], Property(key, names[i]))
    ensures forall i | 0 <= i < |p| && i % 2 == 1 :: p[i] == And
    decreases |names|
  {
    if |names| == 0 then []
    else if |names| == 1 then [Leaf(names[0], Property(key, names[0]))]
    else
      var tail := Conjunction(names[1..], key);
      assert forall i | 1 <= i < |names| :: tail[2 * (i - 1)] == Leaf(names[i], Property(key, names[i])) by {
        forall i | 1 <= i < |names|
          ensures tail[2 * (i - 1)] == Leaf(names[i], Property(key, names[i]))
        {
          assert names[1..][i - 1] == names[i];
        }
      }
      [Leaf(names[0], Property(key, names[0])), And] + tail
  }

  /**
    `_processSelectedItem`: the predicate selecting one key. For a single key field it is the
    leaf `[field, "=", key]`; for a compound key the `"and"`-conjunction of one leaf per field.
   */
  function ProcessSelectedItem(field: KeyField, key: J): (p: seq<J>)
    ensures field.Field? ==> JArr(p) == Leaf(field.name, key)
    ensures field.Fields? ==> p == Conjunction(field.names, key)
    ensures WfExpr(JArr(p)) && Homogeneous(JArr(p))
  {
    match field
    case Field(name) => [JStr(name), Equal, key]
    case Fields(names) =>
      var p := Conjunction(names, key);
      assert forall i | 0 <= i < |p| && i % 2 == 0 :: WfExpr(p[i]) && Homogeneous(p[i]) by {
        forall i | 0 <= i < |p| && i % 2 == 0
          ensures WfExpr(p[i]) && Homogeneous(p[i])
        {
          assert p[2 * (i / 2)] == Leaf(names[i / 2], Property(key, names[i / 2]));
        }
      }
      p
  }

  /** The predicate for `key` under the configured key field. */
  function KeyPredicate(o: Options, key: J): seq<J>
    requires KeyReady(o)
  {
    ProcessSelectedItem(o.key.result.value, key)
  }

  /** `addSelectedItem` / `removeSelectedItem`: merge one key's predicate as a unique term. */
  function Toggle(o: Options, key: J, isDeselect: bool): (o': Options)
    requires Ready(o)
    ensures Ready(o') && o'.baseFilter == o.baseFilter && o'.key == o.key
    ensures Homogeneous(o.selectionFilter) ==> Homogeneous(o'.selectionFilter)
  {
    var p := KeyPredicate(o, key);
    MergeHomogeneousIfAny(o.selectionFilter, isDeselect, p, true);
    o.(selectionFilter := AddSelectionFilter(o.selectionFilter, isDeselect, p, true))
  }

  lemma MergeHomogeneousIfAny(stored: J, isDeselect: bool, filter: seq<J>, isUnique: bool)
    requires WfStored(stored) && WfExpr(JArr(filter)) && Homogeneous(JArr(filter))
    ensures Homogeneous(stored) ==> Homogeneous(AddSelectionFilter(stored, isDeselect, filter, isUnique))
  {
    if Homogeneous(stored) {
      MergeHomogeneous(stored, isDeselect, filter, isUnique);
    }
  }

  /** `addSelectedItem`: the key's predicate is appended with `"or"` unless present or cancelled. */
  function AddSelectedItem(o: Options, key: J): (o': Options)
    requires Ready(o)
    ensures Ready(o') && o'.baseFilter == o.baseFilter && o'.key == o.key
    ensures JArr(KeyPredicate(o, key)) in Sequence(o.selectionFilter) ==> o' == o
    ensures o'.selectionFilter != JArr([])
  {
    Toggle(o, key, false)
  }

  /** `removeSelectedItem`: the key's negated predicate is appended with `"and"` unless present or cancelled. */
  function RemoveSelectedItem(o: Options, key: J): (o': Options)
    requires Ready(o)
    ensures Ready(o') && o'.baseFilter == o.baseFilter && o'.key == o.key
    ensures Negate(JArr(KeyPredicate(o, key))) in Sequence(o.selectionFilter) ==> o' == o
    ensures o'.selectionFilter != JNull
  {
    Toggle(o, key, true)
  }

  /** The loop of `selectedItemKeys` and `setSelectedItems`: select (or deselect) each key in order. */
  function ToggleEach(o: Options, keys: seq<J>, isDeselect: bool): (o': Options)
    requires Ready(o)
    ensures Ready(o') && o'.baseFilter == o.baseFilter && o'.key == o.key
    ensures Homogeneous(o.selectionFilter) ==> Homogeneous(o'.selectionFilter)
    ensures |keys| == 0 ==> o' == o
    ensures |keys| > 0 && isDeselect ==> o'.selectionFilter != JNull
    ensures |keys| > 0 && !isDeselect ==> o'.selectionFilter != JArr([])
    decreases |keys|
  {
    if |keys| == 0 then o
    else ToggleEach(Toggle(o, keys[0], isDeselect), keys[1..], isDeselect)
  }

  /**
    `selectedItemKeys`: select-all / deselect-all either resets the filter (no base filter)
    or merges the base filter as a non-unique term; otherwise the filter is reset to `[]`
    unless preserved, and each key is selected or deselected in order.
   */
  function SelectedItemKeys(o: Options, keys: seq<J>, preserve: bool, isDeselect: bool, isSelectAll: bool): (o': Options)
    requires isSelectAll && o.baseFilter.Some? ==> WfStored(o.selectionFilter) && WfExpr(JArr(o.baseFilter.value))
    requires !isSelectAll && |keys| > 0 ==> KeyReady(o) && (preserve ==> WfStored(o.selectionFilter))
    ensures o'.baseFilter == o.baseFilter && o'.key == o.key
    ensures isSelectAll && o.baseFilter.None? ==> o'.selectionFilter == if isDeselect then JArr([]) else JNull
    ensures isSelectAll && o.baseFilter.Some? ==> WfStored(o'.selectionFilter)
    ensures isSelectAll && isDeselect ==> o'.selectionFilter != JNull
    ensures !isSelectAll && !preserve && |keys| == 0 ==> o'.selectionFilter == JArr([])
    ensures !isSelectAll && preserve && |keys| == 0 ==> o' == o
    ensures !isSelectAll && |keys| > 0 ==> Ready(o')
  {
    if isSelectAll then
      match o.baseFilter
      case None => o.(selectionFilter := if isDeselect then JArr([]) else JNull)
      case Some(base) => o.(selectionFilter := AddSelectionFilter(o.selectionFilter, isDeselect, base, false))
    else
      var start := if preserve then o else o.(selectionFilter := JArr([]));
      if |keys| == 0 then start else ToggleEach(start, keys, isDeselect)
  }

  /** `setSelectedItems`: reset the filter to `null`, then select each key in order. */
  function SetSelectedItems(o: Options, keys: seq<J>): (o': Options)
    requires |keys| > 0 ==> KeyReady(o)
    ensures o'.baseFilter == o.baseFilter && o'.key == o.key
    ensures |keys| == 0 ==> o'.selectionFilter == JNull
    ensures |keys| > 0 ==> Ready(o') && o'.selectionFilter != JArr([])
  {
    var start := o.(selectionFilter := JNull);
    if |keys| == 0 then start else ToggleEach(start, keys, false)
  }

  /**
    `getSelectAllState` as the source writes it: `null` means all selected, `[]` none; with no
    (or an empty) base filter the state is undetermined; otherwise the base filter, or its
    negation, must be the last top-level term of the denormalized selection filter.
   */
  function GetSelectAllStateAsWritten(o: Options): (r: SelectAllState)
    requires !Truthy(o.selectionFilter) || o.selectionFilter.JArr?
    ensures !Truthy(o.selectionFilter) ==> r == AllSelected
    ensures o.selectionFilter == JArr([]) ==> r == NoneSelected
    ensures o.selectionFilter.JArr? && o.selectionFilter != JArr([]) && (o.baseFilter.None? || o.baseFilter == Some([])) ==> r == Indeterminate
    ensures r == AllSelected && o.selectionFilter.JArr? ==>
      o.baseFilter.Some? && IsLastSubFilterAsWritten(Denormalize(o.selectionFilter.elems), JArr(o.baseFilter.value))
    ensures o.selectionFilter.JArr? && o.selectionFilter != JArr([]) && o.baseFilter.Some? && o.baseFilter.value != [] ==>
      (r == AllSelected <==> IsLastSubFilterAsWritten(Denormalize(o.selectionFilter.elems), JArr(o.baseFilter.value)))
    ensures o.selectionFilter.JArr? && o.selectionFilter != JArr([]) && o.baseFilter.Some? && o.baseFilter.value != [] ==>
      (r == NoneSelected <==> !IsLastSubFilterAsWritten(Denormalize(o.selectionFilter.elems), JArr(o.baseFilter.value))
                              && IsLastSubFilterAsWritten(Denormalize(o.selectionFilter.elems), Negate(JArr(o.baseFilter.value))))
  {
    var sel := o.selectionFilter;
    if !Truthy(sel) then AllSelected
    else if sel.elems == [] then NoneSelected
    else match o.baseFilter
      case None => Indeterminate
      case Some(base) =>
        if base == [] then Indeterminate
        else
          var s := Denormalize(sel.elems);
          if IsLastSubFilterAsWritten(s, JArr(base)) then AllSelected
          else if IsLastSubFilterAsWritten(s, Negate(JArr(base))) then NoneSelected
          else Indeterminate
  }

  /**
    `getSelectAllState` with the corrected last-term test: the base filter also counts as the
    last term when it is the whole (compound) selection filter.
   */
  function GetSelectAllState(o: Options): (r: SelectAllState)
    requires !Truthy(o.selectionFilter) || o.selectionFilter.JArr?
    ensures !Truthy(o.selectionFilter) ==> r == AllSelected
    ensures o.selectionFilter == JArr([]) ==> r == NoneSelected
    ensures o.selectionFilter.JArr? && o.selectionFilter != JArr([]) && (o.baseFilter.None? || o.baseFilter == Some([])) ==> r == Indeterminate
    ensures o.baseFilter.Some? && o.selectionFilter == JArr(o.baseFilter.value) && o.baseFilter.value != [] ==> r == AllSelected
    ensures o.baseFilter.Some? && o.selectionFilter == Negate(JArr(o.baseFilter.value)) && o.baseFilter.value != [] ==> r == NoneSelected
    ensures o.selectionFilter.JArr? && o.selectionFilter != JArr([]) && o.baseFilter.Some? && o.baseFilter.value != [] ==>
      (r == AllSelected <==> IsLastSubFilter(Denormalize(o.selectionFilter.elems), JArr(o.baseFilter.value)))
    ensures o.selectionFilter.JArr? && o.selectionFilter != JArr([]) && o.baseFilter.Some? && o.baseFilter.value != [] ==>
      (r == NoneSelected <==> !IsLastSubFilter(Denormalize(o.selectionFilter.elems), JArr(o.baseFilter.value))
                              && IsLastSubFilter(Denormalize(o.selectionFilter.elems), Negate(JArr(o.baseFilter.value))))
  {
    var sel := o.selectionFilter;
    if !Truthy(sel) then AllSelected
    else if sel.elems == [] then NoneSelected
    else match o.baseFilter
      case None => Indeterminate
      case Some(base) =>
        if base == [] then Indeterminate
        else
          var s := Denormalize(sel.elems);
          assert sel == Negate(JArr(base)) ==> !IsLastSubFilter(s, JArr(base)) by {
            if sel == Negate(JArr(base)) {
              assert s == [sel];
              assert base[0] < JArr(base);
            }
          }
          if IsLastSubFilter(s, JArr(base)) then AllSelected
          else if IsLastSubFilter(s, Negate(JArr(base))) then NoneSelected
          else Indeterminate
  }

  /**
    `isItemKeySelected`: with no selection filter every item is selected; otherwise the answer
    is the data query's evaluation of the filter on the item, given here as `evaluate`.
   */
  function IsItemKeySelected(o: Options, item: J, evaluate: (J, J) -> bool): (r: bool)
    ensures !Truthy(o.selectionFilter) ==> r
    ensures Truthy(o.selectionFilter) ==> r == evaluate(o.selectionFilter, item)
  {
    if !Truthy(o.selectionFilter) then true else evaluate(o.selectionFilter, item)
  }

  /** `validate`: fails with E1042 exactly when an accessor is configured and returns `undefined`. */
  function Validate(o: Options): (r: Validation)
    ensures r.Invalid? <==> o.key == Accessor(None)
    ensures r.Invalid? ==> r.code == "E1042"
  {
    if o.key.Accessor? && o.key.result.None? then Invalid("E1042") else Valid
  }
}

=== FILE: filter_shape.dfy ===
/**
  The two physical shapes of a selection filter and the grammar the strategy keeps.

  A filter expression is an array. It is either "leaf-like" (its first element is a
  string: an equality leaf `[field, "=", value]` or a negation `["!", f]`), or a
  compound: sub-expressions at even positions separated by operator tokens at odd
  positions. The strategy works on the compound ("denormalized") form and collapses a
  one-element compound back to its element ("normalized") before storing it.
 */
module FilterShape {
  import opened Json

  /** The filter grammar: leaf-like arrays, and compounds whose sub-expressions are well formed. */
  predicate WfExpr(e: J)
    decreases e, 1
  {
    match e
    case JArr(xs) => (|xs| > 0 && xs[0].JStr?) || Compound(xs)
    case _ => false
  }

  /** A well-formed compound: sub-expressions at even positions, operator tokens at odd ones. */
  predicate Compound(s: seq<J>)
    decreases JArr(s), 0
  {
    && (|s| == 0 || |s| % 2 == 1)
    && forall i | 0 <= i < |s| :: if i % 2 == 0 then WfExpr(s[i]) else s[i].JStr?
  }

  /** What the stored `selectionFilter` option may hold: `null` or a well-formed expression. */
  predicate WfStored(f: J) {
    f == JNull || WfExpr(f)
  }

  /**
    Every compound, at every nesting level and under every negation `["!", x]`, uses one
    operator token throughout. Other leaf-like arrays (equality leaves) hold no compound.
   */
  predicate Homogeneous(e: J)
    decreases e, 1
  {
    match e
    case JArr(xs) =>
      if |xs| == 2 && xs[0] == Not then Homogeneous(xs[1])
      else (|xs| > 0 && xs[0].JStr?) || HomogeneousSeq(xs)
    case _ => true
  }

  /** Top-level operator tokens of a compound sequence agree, and its sub-expressions are homogeneous. */
  predicate HomogeneousSeq(s: seq<J>)
    decreases JArr(s), 0
  {
    && (forall i, k | 0 <= i < |s| && 0 <= k < |s| && i % 2 == 1 && k % 2 == 1 :: s[i] == s[k])
    && forall i | 0 <= i < |s| && i % 2 == 0 :: Homogeneous(s[i])
  }

  /** `_denormalizeFilter`: a leaf-like filter becomes a one-element sequence; anything else is left as it is. */
  function Denormalize(f: seq<J>): (s: seq<J>)
    ensures |f| > 0 && f[0].JStr? ==> s == [JArr(f)]
    ensures !(|f| > 0 && f[0].JStr?) ==> s == f
  {
    if |f| > 0 && f[0].JStr? then [JArr(f)] else f
  }

  /** `_normalizeFilter`: a one-element sequence collapses to its element. */
  function Normalize(s: seq<J>): (f: J)
    ensures |s| == 1 ==> f == s[0]
    ensures |s| != 1 ==> f == JArr(s)
  {
    if |s| == 1 then s[0] else JArr(s)
  }

  /** The denormalized view of the stored option; a falsy (`null`) option reads as `[]`. */
  function Sequence(stored: J): (s: seq<J>)
    requires WfStored(stored)
    ensures stored == JNull ==> s == []
    ensures stored.JArr? ==> s == Denormalize(stored.elems)
  {
    if stored == JNull then [] else Denormalize(stored.elems)
  }

  /** Denormalizing a well-formed expression yields a well-formed compound. */
  lemma DenormalizeCompound(f: seq<J>)
    requires WfExpr(JArr(f))
    ensures Compound(Denormalize(f))
  {
  }

  /** Denormalizing keeps homogeneity, now as a property of the top-level sequence. */
  lemma DenormalizeHomogeneous(f: seq<J>)
    requires WfExpr(JArr(f)) && Homogeneous(JArr(f))
    ensures HomogeneousSeq(Denormalize(f))
  {
  }

  /** Normalizing a well-formed compound yields a well-formed expression, hence a storable value. */
  lemma NormalizeWellFormed(s: seq<J>)
    requires Compound(s)
    ensures WfExpr(Normalize(s))
  {
    if |s| == 1 {
      assert WfExpr(s[0]);
    }
  }

  /** Normalizing a homogeneous compound keeps it homogeneous. */
  lemma NormalizeHomogeneous(s: seq<J>)
    requires Compound(s) && HomogeneousSeq(s)
    ensures Homogeneous(Normalize(s))
  {
    if |s| == 1 {
      assert Homogeneous(s[0]);
    }
  }

  /**
    The shape round trip: normalizing a denormalized filter gives the filter back,
    except exactly for a one-element compound `[x]` with `x` not a string, which collapses to `x`.
   */
  lemma NormalizeDenormalize(f: seq<J>)
    ensures Normalize(Denormalize(f)) == JArr(f) <==> !(|f| == 1 && !f[0].JStr?)
  {
    if |f| == 1 && !f[0].JStr? {
      assert Normalize(Denormalize(f)) == f[0];
      assert f[0] in f;
      assert f[0] != JArr(f);
    }
  }

  /** The other direction: denormalizing a normalized compound gives it back when it has two or more elements. */
  lemma DenormalizeNormalize(s: seq<J>)
    requires Compound(s) && |s| != 1
    ensures Denormalize(Normalize(s).elems) == s
  {
    if |s| > 0 {
      assert WfExpr(s[0]);
      assert !s[0].JStr?;
    }
  }
}

=== FILE: json.dfy ===
/**
  JSON-like values as the deferred selection strategy sees them.

  The strategy compares filter expressions with `JSON.stringify`, so two values
  are "the same filter" exactly when they serialize identically. For the values
  modelled here that is structural equality of this datatype. `undefined`
  inside an array serializes as `null`, so a missing property is modelled as
  `JNull`.
 */
module Json {

  datatype J =
    | JNull
    | JBool(b: bool)
    | JInt(n: int)
    | JStr(s: string)
    | JArr(elems: seq<J>)
    | JObj(fields: map<string, J>)

  /** JavaScript truthiness: `null`, `false`, `0` and `""` are falsy; arrays and objects never are. */
  predicate Truthy(j: J) {
    match j
    case JNull => false
    case JBool(b) => b
    case JInt(n) => n != 0
    case JStr(s) => s != ""
    case JArr(_) => true
    case JObj(_) => true
  }

  /** Property access `key[name]`; a missing property (or a non-object) reads as `undefined`, serialized as null. */
  function Property(key: J, name: string): (v: J)
    ensures key.JObj? && name in key.fields ==> v == key.fields[name]
    ensures !(key.JObj? && name in key.fields) ==> v == JNull
  {
    if key.JObj? && name in key.fields then key.fields[name] else JNull
  }

  /** The operator tokens the strategy writes into filters. */
  const Equal: J := JStr("=")
  const And: J := JStr("and")
  const Or: J := JStr("or")
  const Not: J := JStr("!")

  /** The negation wrapper `["!", f]`. */
  function Negate(f: J): (r: J)
    ensures r.JArr? && |r.elems| == 2 && r.elems[0] == Not && r.elems[1] == f
  {
    JArr([Not, f])
  }

  /** An equality leaf `[field, "=", value]`. */
  function Leaf(field: string, value: J): (r: J)
    ensures r.JArr? && |r.elems| == 3
    ensures r.elems[0] == JStr(field) && r.elems[1] == Equal && r.elems[2] == value
  {
    JArr([JStr(field), Equal, value])
  }

  /** A leaf is never a negation: the two shapes differ in length. */
  lemma LeafIsNotNegation(field: string, value: J, f: J)
    ensures Leaf(field, value) != Negate(f)
  {
    assert |Leaf(field, value).elems| != |Negate(f).elems|;
  }
}

=== FILE: merge.dfy ===
/**
  The rewrite steps of the deferred strategy: joining with an operator token
  (`_addFilterOperator`), cancelling an inverse (`_removeInvertedFilter`) and the
  merge-and-commit step (`_addSelectionFilter`) every selection operation goes through.
 */
module Merge {
  import opened Json
  import opened FilterShape
  import opened SubFilter

  /** The term a merge appends: the predicate itself, or its negation when deselecting. */
  function Current(isDeselect: bool, filter: seq<J>): J {
    if isDeselect then Negate(JArr(filter)) else JArr(filter)
  }

  /** The term a merge cancels: the opposite of `Current`. */
  function Inverse(isDeselect: bool, filter: seq<J>): J {
    if isDeselect then JArr(filter) else Negate(JArr(filter))
  }

  /** The operator a merge joins with: `"and"` for a deselection, `"or"` for a selection. */
  function Operator(isDeselect: bool): string {
    if isDeselect then "and" else "or"
  }

  /**
    `_addFilterOperator`: append the operator token. If the sequence already joins its
    terms with a different operator, it first becomes a single nested sub-expression.
   */
  function AddFilterOperator(s: seq<J>, op: string): (r: seq<J>)
    ensures |s| == 0 ==> r == []
    ensures |s| > 0 ==> |r| >= 2 && r[|r| - 1] == JStr(op)
    ensures |s| > 0 ==> r[..|r| - 1] == s || r[..|r| - 1] == [JArr(s)]
    ensures |s| > 1 && s[1].JStr? && s[1] != JStr(op) ==> r == [JArr(s), JStr(op)]
    ensures !(|s| > 1 && s[1].JStr? && s[1] != JStr(op)) && |s| > 0 ==> r == s + [JStr(op)]
  {
    var t := if |s| > 1 && s[1].JStr? && s[1] != JStr(op) then [JArr(s)] else s;
    if |t| > 0 then t + [JStr(op)] else t
  }

  /** The result of `_removeInvertedFilter`: whether a term was cancelled, and what is left. */
  datatype Removal = Removal(removed: bool, rest: seq<J>)

  /** `splice(start, 2)`: remove up to two elements from position `start`. */
  function Splice2(s: seq<J>, start: nat): (r: seq<J>)
    requires start < |s|
    ensures |r| == if start + 2 <= |s| then |s| - 2 else start
    ensures forall j | 0 <= j < |r| :: r[j] == if j < start then s[j] else s[j + 2]
  {
    if start + 2 <= |s| then s[..start] + s[start + 2..] else s[..start]
  }

  /**
    `_removeInvertedFilter`: if the inverse of the new term is the whole sequence, clear it;
    otherwise, if it is a top-level element, remove its first occurrence together with the
    operator token before it (or after it, when it is the first element).
   */
  function RemoveInvertedFilter(s: seq<J>, isDeselect: bool, filter: seq<J>): (r: Removal)
    ensures r.removed <==> JArr(s) == Inverse(isDeselect, filter) || Inverse(isDeselect, filter) in s
    ensures !r.removed ==> r.rest == s
    ensures JArr(s) == Inverse(isDeselect, filter) ==> r.rest == []
    ensures JArr(s) != Inverse(isDeselect, filter) && Inverse(isDeselect, filter) in s ==>
      var i := FindSubFilter(s, Inverse(isDeselect, filter));
      0 <= i < |s| && s[i] == Inverse(isDeselect, filter) && Inverse(isDeselect, filter) !in s[..i] &&
      r.rest == if i > 0 then Splice2(s, i - 1) else Splice2(s, 0)
  {
    var inverse := Inverse(isDeselect, filter);
    var index := FindSubFilter(s, inverse);
    if JArr(s) == inverse then Removal(true, [])
    else if index >= 0 then
      Removal(true, if index > 0 then Splice2(s, index - 1) else Splice2(s, 0))
    else Removal(false, s)
  }

  /**
    Lines 175-186 of `_addSelectionFilter` for a filter not already present: cancel the
    inverse; unless that succeeded for a unique (single key) merge, join and append the term.
   */
  function Rewrite(s: seq<J>, isDeselect: bool, filter: seq<J>, isUnique: bool): (r: seq<J>)
    ensures |s| == 0 ==> r == [Current(isDeselect, filter)]
    ensures |s| > 0 && isUnique && RemoveInvertedFilter(s, isDeselect, filter).removed ==>
      r == RemoveInvertedFilter(s, isDeselect, filter).rest && |r| < |s|
    ensures !(|s| > 0 && isUnique && RemoveInvertedFilter(s, isDeselect, filter).removed) ==>
      |r| > 0 && r[|r| - 1] == Current(isDeselect, filter) && (|r| == 1 || r[|r| - 2] == JStr(Operator(isDeselect)))
  {
    var current := Current(isDeselect, filter);
    if |s| > 0 then
      var removal := RemoveInvertedFilter(s, isDeselect, filter);
      if !removal.removed || !isUnique then AddFilterOperator(removal.rest, Operator(isDeselect)) + [current]
      else removal.rest
    else [current]
  }

  /** Lines 188-190: normalize; an empty selection is stored as `null`, an empty deselection as `[]`. */
  function Commit(s: seq<J>, isDeselect: bool): (r: J)
    ensures Compound(s) ==> WfStored(r)
    ensures Compound(s) && isDeselect ==> r != JNull
    ensures !isDeselect ==> r != JArr([])
    ensures Compound(s) ==> (r == JNull <==> !isDeselect && (s == [] || s == [JArr([])]))
    ensures |s| == 1 && r != JNull ==> r == s[0]
    ensures |s| != 1 && r != JNull ==> r == JArr(s)
  {
    var f := Normalize(s);
    assert |s| == 1 && Compound(s) ==> WfExpr(s[0]);
    if !isDeselect && f == JArr([]) then JNull else f
  }

  /**
    `_addSelectionFilter`: merge the predicate `filter` into the stored selection filter.
    A term already present leaves the option untouched; the result is again a storable filter;
    a selection never stores `[]` and a deselection never stores `null`.
   */
  function AddSelectionFilter(stored: J, isDeselect: bool, filter: seq<J>, isUnique: bool): (r: J)
    requires WfStored(stored) && WfExpr(JArr(filter))
    ensures WfStored(r)
    ensures |Sequence(stored)| > 0 && Current(isDeselect, filter) in Sequence(stored) ==> r == stored
    ensures isDeselect ==> r != JNull
    ensures !isDeselect ==> r != JArr([])
  {
    var s := Sequence(stored);
    DenormalizeStoredCompound(stored);
    if |s| > 0 && HasSameFilter(s, Current(isDeselect, filter)) then stored
    else
      var s' := Rewrite(s, isDeselect, filter, isUnique);
      RewriteCompound(s, isDeselect, filter, isUnique);
      NormalizeWellFormed(s');
      Commit(s', isDeselect)
  }

  lemma DenormalizeStoredCompound(stored: J)
    requires WfStored(stored)
    ensures Compound(Sequence(stored))
  {
    if stored.JArr? {
      DenormalizeCompound(stored.elems);
    }
  }

  /** An array that is a top-level element of a compound sits at an even position. */
  lemma ArrayAtEvenPosition(s: seq<J>, i: int)
    requires Compound(s) && 0 <= i < |s| && s[i].JArr?
    ensures i % 2 == 0
  {
  }

  /** Removing a token with the term after it, or the leading term with its token, keeps a compound. */
  lemma SpliceCompound(s: seq<J>, start: nat)
    requires Compound(s) && start < |s|
    requires start == 0 || (start % 2 == 1 && start + 1 < |s|)
    ensures Compound(Splice2(s, start))
    ensures HomogeneousSeq(s) ==> HomogeneousSeq(Splice2(s, start))
  {
    var r := Splice2(s, start);
    assert |r| == 0 || |r| % 2 == 1;
    forall j | 0 <= j < |r|
      ensures if j % 2 == 0 then WfExpr(r[j]) else r[j].JStr?
    {
      if j >= start {
        assert r[j] == s[j + 2];
      }
    }
  }

  /** Cancelling a term keeps a compound well formed (and homogeneous): terms go with their tokens. */
  lemma {:induction false} RemoveInvertedCompound(s: seq<J>, isDeselect: bool, filter: seq<J>)
    requires Compound(s)
    ensures Compound(RemoveInvertedFilter(s, isDeselect, filter).rest)
    ensures HomogeneousSeq(s) ==> HomogeneousSeq(RemoveInvertedFilter(s, isDeselect, filter).rest)
  {
    var inverse := Inverse(isDeselect, filter);
    if JArr(s) != inverse && inverse in s {
      var i := FindSubFilter(s, inverse);
      ArrayAtEvenPosition(s, i);
      SpliceCompound(s, if i > 0 then i - 1 else 0);
    }
  }

  /** Joining a non-empty compound and appending a well-formed term keeps it a compound. */
  lemma {:induction false} AppendCompound(s: seq<J>, op: string, t: J)
    requires Compound(s) && |s| > 0 && WfExpr(t)
    ensures Compound(AddFilterOperator(s, op) + [t])
  {
    var r := AddFilterOperator(s, op) + [t];
    if |s| > 1 && s[1].JStr? && s[1] != JStr(op) {
      assert r == [JArr(s), JStr(op), t];
      assert WfExpr(JArr(s)) by {
        assert WfExpr(s[0]);
      }
    } else {
      assert r == s + [JStr(op), t];
    }
  }

  /**
    Joining a non-empty homogeneous compound: afterwards every top-level operator token
    is the new operator, so mixed `and`/`or` only ever appear through nesting.
   */
  lemma {:induction false} AppendHomogeneous(s: seq<J>, op: string, t: J)
    requires Compound(s) && HomogeneousSeq(s) && |s| > 0 && Homogeneous(t)
    ensures forall i | 0 <= i < |AddFilterOperator(s, op) + [t]| && i % 2 == 1 :: (AddFilterOperator(s, op) + [t])[i] == JStr(op)
    ensures HomogeneousSeq(AddFilterOperator(s, op) + [t])
  {
    if |s| > 1 && s[1].JStr? && s[1] != JStr(op) {
      AppendNested(s, op, t);
    } else {
      AppendFlat(s, op, t);
    }
  }

  lemma AppendNested(s: seq<J>, op: string, t: J)
    requires Compound(s) && HomogeneousSeq(s) && |s| > 1 && Homogeneous(t)
    requires s[1].JStr? && s[1] != JStr(op)
    ensures AddFilterOperator(s, op) + [t] == [JArr(s), JStr(op), t]
    ensures HomogeneousSeq([JArr(s), JStr(op), t])
  {
    assert Homogeneous(JArr(s)) by {
      assert WfExpr(s[0]);
    }
  }

  lemma AppendFlat(s: seq<J>, op: string, t: J)
    requires Compound(s) && HomogeneousSeq(s) && |s| > 0 && Homogeneous(t)
    requires !(|s| > 1 && s[1].JStr? && s[1] != JStr(op))
    ensures forall i | 0 <= i < |s| + 2 && i % 2 == 1 :: (s + [JStr(op), t])[i] == JStr(op)
    ensures AddFilterOperator(s, op) + [t] == s + [JStr(op), t]
    ensures HomogeneousSeq(s + [JStr(op), t])
  {
    var r := s + [JStr(op), t];
    forall i | 0 <= i < |r| && i % 2 == 1
      ensures r[i] == JStr(op)
    {
      if i < |s| {
        assert s[i] == s[1];
      }
    }
  }

  /** The rewrite of a well-formed compound by a well-formed predicate is a well-formed compound. */
  lemma {:induction false} RewriteCompound(s: seq<J>, isDeselect: bool, filter: seq<J>, isUnique: bool)
    requires Compound(s) && WfExpr(JArr(filter))
    ensures Compound(Rewrite(s, isDeselect, filter, isUnique))
  {
    var current := Current(isDeselect, filter);
    assert WfExpr(current);
    if |s| > 0 {
      var removal := RemoveInvertedFilter(s, isDeselect, filter);
      RemoveInvertedCompound(s, isDeselect, filter);
      if (!removal.removed || !isUnique) && |removal.rest| > 0 {
        AppendCompound(removal.rest, Operator(isDeselect), current);
      }
    }
  }

  /** The rewrite keeps every compound homogeneous. */
  lemma {:induction false} RewriteHomogeneous(s: seq<J>, isDeselect: bool, filter: seq<J>, isUnique: bool)
    requires Compound(s) && HomogeneousSeq(s) && Homogeneous(JArr(filter))
    ensures HomogeneousSeq(Rewrite(s, isDeselect, filter, isUnique))
  {
    var current := Current(isDeselect, filter);
    assert Homogeneous(current);
    if |s| > 0 {
      var removal := RemoveInvertedFilter(s, isDeselect, filter);
      RemoveInvertedCompound(s, isDeselect, filter);
      if (!removal.removed || !isUnique) && |removal.rest| > 0 {
        AppendHomogeneous(removal.rest, Operator(isDeselect), current);
      }
    }
  }

  /** Merging keeps the stored filter homogeneous at every nesting level. */
  lemma MergeHomogeneous(stored: J, isDeselect: bool, filter: seq<J>, isUnique: bool)
    requires WfStored(stored) && WfExpr(JArr(filter))
    requires Homogeneous(stored) && Homogeneous(JArr(filter))
    ensures Homogeneous(AddSelectionFilter(stored, isDeselect, filter, isUnique))
  {
    var s := Sequence(stored);
    DenormalizeStoredCompound(stored);
    if stored.JArr? {
      DenormalizeHomogeneous(stored.elems);
    }
    if !(|s| > 0 && HasSameFilter(s, Current(isDeselect, filter))) {
      var s' := Rewrite(s, isDeselect, filter, isUnique);
      RewriteCompound(s, isDeselect, filter, isUnique);
      RewriteHomogeneous(s, isDeselect, filter, isUnique);
      NormalizeHomogeneous(s');
    }
  }

  /** A merge that finds neither its term nor the term's inverse joins and appends the term. */
  lemma MergeAppends(stored: J, isDeselect: bool, filter: seq<J>, isUnique: bool)
    requires WfStored(stored) && WfExpr(JArr(filter))
    requires Current(isDeselect, filter) !in Sequence(stored)
    requires Inverse(isDeselect, filter) !in Sequence(stored)
    requires JArr(Sequence(stored)) != Inverse(isDeselect, filter)
    ensures var s := Sequence(stored);
      AddSelectionFilter(stored, isDeselect, filter, isUnique) ==
        Commit(if |s| > 0 then AddFilterOperator(s, Operator(isDeselect)) + [Current(isDeselect, filter)]
               else [Current(isDeselect, filter)], isDeselect)
  {
    var s := Sequence(stored);
    if |s| > 0 {
      assert RemoveInvertedFilter(s, isDeselect, filter) == Removal(false, s);
    }
  }

  /**
    A non-unique merge (select-all against a base filter) that cancels the inverse of its term
    still joins and appends the term to what is left.
   */
  lemma MergeCancelsThenAppends(stored: J, isDeselect: bool, filter: seq<J>)
    requires WfStored(stored) && WfExpr(JArr(filter))
    requires Current(isDeselect, filter) !in Sequence(stored)
    requires |Sequence(stored)| > 0 && RemoveInvertedFilter(Sequence(stored), isDeselect, filter).removed
    ensures AddSelectionFilter(stored, isDeselect, filter, false) ==
      Commit(AddFilterOperator(RemoveInvertedFilter(Sequence(stored), isDeselect, filter).rest, Operator(isDeselect))
             + [Current(isDeselect, filter)], isDeselect)
  {
  }

  /** A unique merge that cancels the inverse of its term stores what is left and appends nothing. */
  lemma MergeCancels(stored: J, isDeselect: bool, filter: seq<J>)
    requires WfStored(stored) && WfExpr(JArr(filter))
    requires Current(isDeselect, filter) !in Sequence(stored)
    requires |Sequence(stored)| > 0 && RemoveInvertedFilter(Sequence(stored), isDeselect, filter).removed
    ensures AddSelectionFilter(stored, isDeselect, filter, true) ==
      Commit(RemoveInvertedFilter(Sequence(stored), isDeselect, filter).rest, isDeselect)
  {
  }
}

=== FILE: properties.dfy ===
/**
  Properties of the deferred selection strategy that relate several operations:
  when selecting twice equals selecting once, which toggles cancel, how the operator
  tokens nest, what select-all leaves behind and what `setSelectedItems` stores.
 */
module StrategyProperties {
  import opened Json
  import opened FilterShape
  import opened SubFilter
  import opened Merge
  import opened DeferredStrategy

  /** The term one single-field key contributes to a merge: its leaf, negated when deselecting. */
  function Term(field: string, key: J, isDeselect: bool): J {
    Current(isDeselect, [JStr(field), Equal, key])
  }

  function Terms(field: string, keys: seq<J>, isDeselect: bool): (ts: seq<J>)
    ensures |ts| == |keys|
    ensures forall i | 0 <= i < |keys| :: ts[i] == Term(field, keys[i], isDeselect)
  {
    seq(|keys|, i requires 0 <= i < |keys| => Term(field, keys[i], isDeselect))
  }

  /** The compound `[t0, op, t1, op, ..., tn-1]` that repeated appends build. */
  function Joined(ts: seq<J>, op: J): (s: seq<J>)
    ensures |s| == if |ts| == 0 then 0 else 2 * |ts| - 1
    ensures forall i | 0 <= i < |ts| :: s[2 * i] == ts[i]
    ensures forall i | 0 <= i < |s| && i % 2 == 1 :: s[i] == op
    decreases |ts|
  {
    if |ts| <= 1 then ts
    else
      var front := Joined(ts[..|ts| - 1], op);
      assert forall i | 0 <= i < |ts| - 1 :: front[2 * i] == ts[i] by {
        forall i | 0 <= i < |ts| - 1
          ensures front[2 * i] == ts[i]
        {
          assert ts[..|ts| - 1][i] == ts[i];
        }
      }
      front + [op, ts[|ts| - 1]]
  }

  predicate Distinct(keys: seq<J>) {
    forall i, j | 0 <= i < j < |keys| :: keys[i] != keys[j]
  }

  /** Options whose key accessor names the single field `field`. */
  predicate SingleField(o: Options, field: string) {
    o.key == Accessor(Some(Field(field)))
  }

  /** An empty selection in either representation: `null` or `[]`. */
  predicate Cleared(f: J) {
    f == JNull || f == JArr([])
  }

  // ----- Idempotence of single-key toggles -----

  /**
    When the first toggle of a single-field key did not cancel an inverse term, toggling the
    same key again changes nothing: the term is now a top-level element and the merge returns early.
   */
  lemma {:induction false} ToggleTwiceIsToggleOnce(o: Options, field: string, key: J, isDeselect: bool)
    requires Ready(o) && SingleField(o, field)
    requires Inverse(isDeselect, [JStr(field), Equal, key]) !in Sequence(o.selectionFilter)
    requires JArr(Sequence(o.selectionFilter)) != Inverse(isDeselect, [JStr(field), Equal, key])
    ensures Toggle(Toggle(o, key, isDeselect), key, isDeselect) == Toggle(o, key, isDeselect)
  {
    var p := KeyPredicate(o, key);
    assert p == [JStr(field), Equal, key];
    var cur := Current(isDeselect, p);
    var s := Sequence(o.selectionFilter);
    DenormalizeStoredCompound(o.selectionFilter);
    var o1 := Toggle(o, key, isDeselect);
    if !(|s| > 0 && cur in s) {
      var s' := Rewrite(s, isDeselect, p, true);
      if |s| > 0 {
        var removal := RemoveInvertedFilter(s, isDeselect, p);
        assert !removal.removed;
        var t := AddFilterOperator(s, Operator(isDeselect));
        assert s' == t + [cur];
        assert |s'| >= 3;
        RewriteCompound(s, isDeselect, p, true);
        assert WfExpr(s'[0]);
        assert o1.selectionFilter == JArr(s');
        assert Sequence(o1.selectionFilter) == s';
        assert s'[|s'| - 1] == cur;
      } else {
        assert s' == [cur];
        assert o1.selectionFilter == cur;
        assert Sequence(o1.selectionFilter) == [cur];
      }
      assert cur in Sequence(o1.selectionFilter);
    }
  }

  /**
    Selecting twice is not selecting once after a cancellation: from "everything except k",
    selecting k gives `null` (everything), and selecting k again gives only k.
   */
  lemma SelectAfterCancellationIsNotIdempotent(o: Options, field: string, key: J)
    requires Ready(o) && SingleField(o, field)
    requires o.selectionFilter == Negate(Leaf(field, key))
    ensures AddSelectedItem(o, key).selectionFilter == JNull
    ensures AddSelectedItem(AddSelectedItem(o, key), key).selectionFilter == Leaf(field, key)
  {
    var p := KeyPredicate(o, key);
    assert JArr(p) == Leaf(field, key);
    var s := Sequence(o.selectionFilter);
    assert s == [Negate(JArr(p))];
    assert JArr(p) != Negate(JArr(p));
    assert RemoveInvertedFilter(s, false, p).rest == [];
  }

  /**
    A compound key is never found as a top-level term of its own un-wrapped conjunction, so
    selecting it twice from an empty selection stores `[F, "or", F]`.
   */
  lemma CompoundKeySelectedTwice(o: Options, names: seq<string>, key: J)
    requires Ready(o) && o.key == Accessor(Some(Fields(names))) && |names| >= 2
    requires Cleared(o.selectionFilter)
    ensures var f := JArr(Conjunction(names, key));
      && AddSelectedItem(o, key).selectionFilter == f
      && AddSelectedItem(AddSelectedItem(o, key), key).selectionFilter == JArr([f, Or, f])
  {
    var p := KeyPredicate(o, key);
    assert p == Conjunction(names, key);
    MergeAppends(o.selectionFilter, false, p, true);
    ConjunctionMergedTwice(names, key);
  }

  /** Merging a conjunction of two or more leaves into itself joins a second copy with `"or"`. */
  lemma ConjunctionMergedTwice(names: seq<string>, key: J)
    requires |names| >= 2
    ensures var p := ProcessSelectedItem(Fields(names), key);
      AddSelectionFilter(JArr(p), false, p, true) == JArr([JArr(p), Or, JArr(p)])
  {
    var p := ProcessSelectedItem(Fields(names), key);
    var f := JArr(p);
    assert p[0] == Leaf(names[0], Property(key, names[0]));
    assert Sequence(f) == p;
    assert Negate(f) !in p by {
      forall i | 0 <= i < |p|
        ensures p[i] != Negate(f)
      {
        if i % 2 == 0 {
          assert p[2 * (i / 2)] == Leaf(names[i / 2], Property(key, names[i / 2]));
        }
      }
    }
    MergeAppends(f, false, p, true);
    assert AddFilterOperator(p, "or") == [f, Or];
  }

  // ----- Cancellation round trips -----

  /** Starting from `null` (everything selected), deselecting a key and selecting it again restores `null`. */
  lemma RemoveThenAddRestoresNull(o: Options, key: J)
    requires Ready(o) && o.selectionFilter == JNull
    ensures RemoveSelectedItem(o, key).selectionFilter == Negate(JArr(KeyPredicate(o, key)))
    ensures AddSelectedItem(RemoveSelectedItem(o, key), key).selectionFilter == JNull
  {
    var p := KeyPredicate(o, key);
    var o1 := RemoveSelectedItem(o, key);
    assert o1.selectionFilter == Negate(JArr(p));
    var s := Sequence(o1.selectionFilter);
    assert s == [Negate(JArr(p))];
    assert JArr(p) != Negate(JArr(p));
    assert JArr(s) != Negate(JArr(p)) by {
      assert s[0] != Not;
    }
    assert RemoveInvertedFilter(s, false, p).rest == [];
  }

  /**
    From an empty selection (`null` or `[]`, which the merge treats alike), selecting a key and
    deselecting it again stores `[]`: nothing selected, so from `null` the round trip does not return.
   */
  lemma AddThenRemoveClears(o: Options, key: J)
    requires Ready(o) && Cleared(o.selectionFilter)
    requires KeyPredicate(o, key) != []
    ensures AddSelectedItem(o, key).selectionFilter == JArr(KeyPredicate(o, key))
    ensures RemoveSelectedItem(AddSelectedItem(o, key), key).selectionFilter == JArr([])
  {
    var p := KeyPredicate(o, key);
    var o1 := AddSelectedItem(o, key);
    assert o1.selectionFilter == JArr(p);
    var s := Sequence(o1.selectionFilter);
    assert Negate(JArr(p)) !in s by {
      if p[0].JStr? {
        assert s == [JArr(p)];
      } else {
        assert s == p;
        forall i | 0 <= i < |p|
          ensures p[i] != Negate(JArr(p))
        {
          assert p[i] < JArr(p);
        }
      }
    }
    var removal := RemoveInvertedFilter(s, true, p);
    assert removal.removed && removal.rest == [] by {
      if p[0].JStr? {
        assert s == [JArr(p)];
        assert JArr(s) != JArr(p) by {
          assert s[0] != p[0];
        }
      }
    }
  }

  // ----- Operator nesting -----

  /**
    Select k1, deselect k2, select k3 (distinct single-field keys) from an empty selection:
    the `"and"` step joins onto the single term, and the `"or"` step nests the `"and"` compound,
    giving `[[p1, "and", ["!", p2]], "or", p3]`.
   */
  lemma SelectDeselectSelect(o: Options, field: string, k1: J, k2: J, k3: J)
    requires Ready(o) && SingleField(o, field) && Cleared(o.selectionFilter)
    requires k1 != k2 && k2 != k3 && k1 != k3
    ensures var p1, p2, p3 := Leaf(field, k1), Leaf(field, k2), Leaf(field, k3);
      RemoveSelectedItem(AddSelectedItem(o, k1), k2).selectionFilter == JArr([p1, And, Negate(p2)])
      && AddSelectedItem(RemoveSelectedItem(AddSelectedItem(o, k1), k2), k3).selectionFilter
         == JArr([JArr([p1, And, Negate(p2)]), Or, p3])
  {
    var p1, p2, p3 := Leaf(field, k1), Leaf(field, k2), Leaf(field, k3);
    assert KeyPredicate(o, k1) == p1.elems;
    MergeAppends(o.selectionFilter, false, p1.elems, true);
    var o1 := AddSelectedItem(o, k1);
    assert o1.selectionFilter == p1;
    DeselectJoinsWithAnd(field, k1, k2);
    var o2 := RemoveSelectedItem(o1, k2);
    assert o2.selectionFilter == JArr([p1, And, Negate(p2)]);
    SelectNestsAndCompound(field, k1, k2, k3);
  }

  /** Deselecting k2 while only k1 is selected joins `["!", p2]` with `"and"`. */
  lemma DeselectJoinsWithAnd(field: string, k1: J, k2: J)
    requires k1 != k2
    ensures AddSelectionFilter(Leaf(field, k1), true, Leaf(field, k2).elems, true)
      == JArr([Leaf(field, k1), And, Negate(Leaf(field, k2))])
  {
    var p1, p2 := Leaf(field, k1), Leaf(field, k2);
    assert Sequence(p1) == [p1];
    LeafIsNotNegation(field, k1, p2);
    MergeAppends(p1, true, p2.elems, true);
  }

  /** The compound `[p1, "and", ["!", p2]]` is stored as is and holds neither `p3` nor `["!", p3]`. */
  lemma NestedCompoundLacksThirdKey(field: string, k1: J, k2: J, k3: J)
    requires k2 != k3 && k1 != k3
    ensures var s := [Leaf(field, k1), And, Negate(Leaf(field, k2))];
      WfExpr(JArr(s)) && Sequence(JArr(s)) == s && Leaf(field, k3) !in s && Negate(Leaf(field, k3)) !in s
        && JArr(s) != Negate(Leaf(field, k3))
  {
    var p1, p2, p3 := Leaf(field, k1), Leaf(field, k2), Leaf(field, k3);
    var s := [p1, And, Negate(p2)];
    assert WfExpr(JArr(s)) by {
      assert WfExpr(s[0]) && WfExpr(s[2]);
    }
    assert Sequence(JArr(s)) == s;
    LeafIsNotNegation(field, k3, p2);
    LeafIsNotNegation(field, k1, p3);
    assert JArr(s) != Negate(p3) by {
      assert s[0] != Not;
    }
  }

  /** Selecting k3 after that finds the `"and"` token and nests the compound before joining with `"or"`. */
  lemma SelectNestsAndCompound(field: string, k1: J, k2: J, k3: J)
    requires k2 != k3 && k1 != k3
    ensures var s := [Leaf(field, k1), And, Negate(Leaf(field, k2))];
      WfExpr(JArr(s)) && AddSelectionFilter(JArr(s), false, Leaf(field, k3).elems, true) == JArr([JArr(s), Or, Leaf(field, k3)])
  {
    var p3 := Leaf(field, k3);
    var s := [Leaf(field, k1), And, Negate(Leaf(field, k2))];
    NestedCompoundLacksThirdKey(field, k1, k2, k3);
    MergeAppends(JArr(s), false, p3.elems, true);
    assert AddFilterOperator(s, "or") == [JArr(s), Or];
  }

  // ----- Select all and the tri-state -----

  /**
    With a base filter b, select-all then deselect-all from an empty selection stores `["!", b]`;
    the corrected tri-state reads "all selected" after the first step and "none" after the second.
   */
  lemma SelectAllThenDeselectAll(o: Options, b: seq<J>)
    requires Cleared(o.selectionFilter) && o.baseFilter == Some(b) && WfExpr(JArr(b)) && b != []
    ensures SelectedItemKeys(o, [], false, false, true).selectionFilter == JArr(b)
    ensures GetSelectAllState(SelectedItemKeys(o, [], false, false, true)) == AllSelected
    ensures SelectedItemKeys(SelectedItemKeys(o, [], false, false, true), [], false, true, true).selectionFilter == Negate(JArr(b))
    ensures GetSelectAllState(SelectedItemKeys(SelectedItemKeys(o, [], false, false, true), [], false, true, true)) == NoneSelected
  {
    var o1 := SelectedItemKeys(o, [], false, false, true);
    assert o1.selectionFilter == JArr(b);
    var s := Sequence(JArr(b));
    assert Negate(JArr(b)) !in s by {
      if b[0].JStr? {
        assert s == [JArr(b)];
      } else {
        assert s == b;
        forall i | 0 <= i < |b|
          ensures b[i] != Negate(JArr(b))
        {
          assert b[i] < JArr(b);
        }
      }
    }
    var removal := RemoveInvertedFilter(s, true, b);
    assert removal.removed && removal.rest == [] by {
      if b[0].JStr? {
        assert s == [JArr(b)];
        assert JArr(s) != JArr(b) by {
          assert s[0] != b[0];
        }
      }
    }
    assert AddFilterOperator([], "and") == [];
  }

  /**
    After select-all with a leaf base filter b, deselecting one other key leaves the
    select-all state undetermined: `["!", k]` is now the last term, not b.
   */
  lemma SelectAllThenRemoveOneIsIndeterminate(o: Options, b: seq<J>, field: string, key: J)
    requires Ready(o) && SingleField(o, field) && Cleared(o.selectionFilter)
    requires o.baseFilter == Some(b) && |b| > 0 && b[0].JStr?
    requires JArr(b) != Leaf(field, key) && JArr(b) != Negate(Leaf(field, key))
    ensures var o1 := RemoveSelectedItem(SelectedItemKeys(o, [], false, false, true), key);
      && o1.selectionFilter == JArr([JArr(b), And, Negate(Leaf(field, key))])
      && GetSelectAllState(o1) == Indeterminate
  {
    var o0 := SelectedItemKeys(o, [], false, false, true);
    assert o0.selectionFilter == JArr(b);
    var p := Leaf(field, key);
    assert Sequence(o0.selectionFilter) == [JArr(b)];
    assert RemoveInvertedFilter([JArr(b)], true, p.elems) == Removal(false, [JArr(b)]);
    var o1 := RemoveSelectedItem(o0, key);
    var s := [JArr(b), And, Negate(p)];
    assert o1.selectionFilter == JArr(s);
    assert Denormalize(s) == s;
    assert Negate(JArr(b)) != Negate(p);
    assert JArr(s) != JArr(b) by {
      assert s[0] != b[0];
    }
    assert JArr(s) != Negate(JArr(b)) by {
      assert s[0] != Not;
    }
  }

  /**
    Select-all again after that is a no-op: the leaf base filter is already a top-level term,
    so the merge returns early and the deselected key stays deselected.
   */
  lemma SelectAllAfterRemoveOneIsNoOp(o: Options, b: seq<J>, field: string, key: J)
    requires Ready(o) && SingleField(o, field) && Cleared(o.selectionFilter)
    requires o.baseFilter == Some(b) && |b| > 0 && b[0].JStr?
    requires JArr(b) != Leaf(field, key) && JArr(b) != Negate(Leaf(field, key))
    ensures var o1 := RemoveSelectedItem(SelectedItemKeys(o, [], false, false, true), key);
      && SelectedItemKeys(o1, [], false, false, true) == o1
      && GetSelectAllState(SelectedItemKeys(o1, [], false, false, true)) == Indeterminate
  {
    SelectAllThenRemoveOneIsIndeterminate(o, b, field, key);
    var o1 := RemoveSelectedItem(SelectedItemKeys(o, [], false, false, true), key);
    var s := [JArr(b), And, Negate(Leaf(field, key))];
    assert Sequence(o1.selectionFilter) == s;
    assert JArr(b) in s;
  }

  /**
    The source's `getSelectAllState` after select-all with a compound base filter: the filter is
    stored un-wrapped, is not one of its own top-level terms, and the state reads "undetermined".
   */
  lemma SelectAllCompoundBaseAsWritten()
    ensures var b := [Leaf("a", JInt(1)), And, Leaf("b", JInt(2))];
      var o := Options(JNull, Some(b), NoAccessor);
      && SelectedItemKeys(o, [], false, false, true).selectionFilter == JArr(b)
      && GetSelectAllStateAsWritten(SelectedItemKeys(o, [], false, false, true)) == Indeterminate
      && GetSelectAllState(SelectedItemKeys(o, [], false, false, true)) == AllSelected
  {
    var b := [Leaf("a", JInt(1)), And, Leaf("b", JInt(2))];
    assert WfExpr(b[0]) && WfExpr(b[2]);
    assert WfExpr(JArr(b));
    var o := Options(JNull, Some(b), NoAccessor);
    var o1 := SelectedItemKeys(o, [], false, false, true);
    assert o1.selectionFilter == JArr(b);
    assert Denormalize(b) == b;
    assert JArr(b) !in b by {
      forall i | 0 <= i < |b|
        ensures b[i] != JArr(b)
      {
        assert b[i] < JArr(b);
      }
    }
    assert Negate(JArr(b)) !in b;
  }

  /**
    A stored filter set directly by the host need not follow the merge's grammar: with the
    implicit-`and` pair `[["a","=",1], ["b","=",2]]` and base `["b","=",2]` the base is the last
    term, so both readings answer "all selected".
   */
  lemma ImplicitAndLastTermReadsAllSelected()
    ensures var o := Options(JArr([Leaf("a", JInt(1)), Leaf("b", JInt(2))]), Some(Leaf("b", JInt(2)).elems), NoAccessor);
      && !WfStored(o.selectionFilter)
      && GetSelectAllStateAsWritten(o) == AllSelected
      && GetSelectAllState(o) == AllSelected
  {
    var s := [Leaf("a", JInt(1)), Leaf("b", JInt(2))];
    assert Denormalize(s) == s;
    assert s[0] != s[1];
  }

  /** Select-all without a base filter, or `setSelectedItems([])`, selects every item whatever the evaluator says. */
  lemma NullFilterSelectsEverything(o: Options, item: J, evaluate: (J, J) -> bool)
    ensures IsItemKeySelected(SelectedItemKeys(o.(baseFilter := None), [], false, false, true), item, evaluate)
    ensures IsItemKeySelected(SetSelectedItems(o, []), item, evaluate)
  {
  }

  /**
    A validated widget with a key accessor can build key predicates, for the accessor results
    `KeyField` represents (a field name or a field list; `undefined` is `None`).
   */
  lemma ValidatedAccessorIsReady(o: Options)
    requires Validate(o) == Valid && o.key.Accessor?
    ensures KeyReady(o)
  {
  }

  // ----- Exact selection: setSelectedItems and selectedItemKeys -----

  lemma {:induction false} JoinedMembers(ts: seq<J>, op: J, x: J)
    requires x in Joined(ts, op)
    ensures x == op || x in ts
  {
    var s := Joined(ts, op);
    var i :| 0 <= i < |s| && s[i] == x;
    if i % 2 == 0 {
      assert s[2 * (i / 2)] == ts[i / 2];
    }
  }

  lemma {:induction false} JoinedAppend(ts: seq<J>, op: J, t: J)
    requires |ts| > 0
    ensures Joined(ts + [t], op) == Joined(ts, op) + [op, t]
  {
    assert (ts + [t])[..|ts|] == ts;
  }

  /** Different keys give different terms of the same kind; a term is never the inverse of another. */
  lemma TermsDiffer(field: string, k: J, k': J, isDeselect: bool)
    ensures k != k' ==> Term(field, k, isDeselect) != Term(field, k', isDeselect)
    ensures Term(field, k, isDeselect) != Inverse(isDeselect, [JStr(field), Equal, k'])
  {
    LeafIsNotNegation(field, k, Leaf(field, k'));
    LeafIsNotNegation(field, k', Leaf(field, k));
  }

  /** The selection filter holding the terms of `keys`, joined, as the strategy stores it. */
  predicate HoldsJoined(f: J, field: string, keys: seq<J>, isDeselect: bool) {
    if |keys| == 0 then Cleared(f)
    else f == Normalize(Joined(Terms(field, keys, isDeselect), JStr(Operator(isDeselect))))
  }

  /** The denormalized view of a stored join is the join itself. */
  lemma {:induction false} SequenceOfJoined(f: J, field: string, done: seq<J>, isDeselect: bool)
    requires HoldsJoined(f, field, done, isDeselect)
    ensures WfStored(f)
    ensures Sequence(f) == Joined(Terms(field, done, isDeselect), JStr(Operator(isDeselect)))
  {
    var ts := Terms(field, done, isDeselect);
    var joined := Joined(ts, JStr(Operator(isDeselect)));
    if |done| == 1 {
      assert joined == [ts[0]];
    } else if |done| > 1 {
      assert joined[0] == ts[0];
      forall i | 0 <= i < |joined| && i % 2 == 0
        ensures WfExpr(joined[i])
      {
        assert joined[2 * (i / 2)] == ts[i / 2];
      }
      assert WfExpr(f);
    }
  }

  /** Neither the term of a fresh key nor its inverse occurs in the join of the other keys' terms. */
  lemma {:induction false} FreshTermAbsent(field: string, done: seq<J>, key: J, isDeselect: bool)
    requires key !in done
    ensures var s := Joined(Terms(field, done, isDeselect), JStr(Operator(isDeselect)));
      && Term(field, key, isDeselect) !in s
      && Inverse(isDeselect, [JStr(field), Equal, key]) !in s
      && JArr(s) != Inverse(isDeselect, [JStr(field), Equal, key])
  {
    var op := JStr(Operator(isDeselect));
    var ts := Terms(field, done, isDeselect);
    var s := Joined(ts, op);
    var cur := Term(field, key, isDeselect);
    var inverse := Inverse(isDeselect, [JStr(field), Equal, key]);
    forall x | x in s
      ensures x != cur && x != inverse
    {
      JoinedMembers(ts, op, x);
      if x in ts {
        var i :| 0 <= i < |ts| && ts[i] == x;
        assert done[i] != key;
        TermsDiffer(field, done[i], key, isDeselect);
      }
    }
    if |s| > 0 {
      assert s[0] == ts[0];
    }
  }

  /** Merging the term of a fresh single-field key into a stored join appends it to the join. */
  lemma {:induction false} MergeFreshKey(stored: J, field: string, done: seq<J>, key: J, isDeselect: bool)
    requires HoldsJoined(stored, field, done, isDeselect)
    requires key !in done
    ensures WfStored(stored)
    ensures HoldsJoined(AddSelectionFilter(stored, isDeselect, [JStr(field), Equal, key], true), field, done + [key], isDeselect)
  {
    var p := [JStr(field), Equal, key];
    assert WfExpr(JArr(p));
    SequenceOfJoined(stored, field, done, isDeselect);
    FreshTermAbsent(field, done, key, isDeselect);
    MergeAppends(stored, isDeselect, p, true);
    var ts := Terms(field, done, isDeselect);
    var cur := Term(field, key, isDeselect);
    assert Terms(field, done + [key], isDeselect) == ts + [cur];
    AppendedJoinCommits(ts, isDeselect, cur);
  }

  /** Appending a term to a join (or to nothing) and committing stores the longer join. */
  lemma {:induction false} AppendedJoinCommits(ts: seq<J>, isDeselect: bool, cur: J)
    requires cur.JArr? && cur != JArr([])
    ensures var s := Joined(ts, JStr(Operator(isDeselect)));
      Commit(if |s| > 0 then AddFilterOperator(s, Operator(isDeselect)) + [cur] else [cur], isDeselect)
        == Normalize(Joined(ts + [cur], JStr(Operator(isDeselect))))
  {
    var op := JStr(Operator(isDeselect));
    var s := Joined(ts, op);
    var appended := if |s| > 0 then AddFilterOperator(s, Operator(isDeselect)) + [cur] else [cur];
    if |ts| == 0 {
      assert ts + [cur] == [cur];
      assert Joined([cur], op) == [cur];
    } else {
      JoinFreshTerm(ts, Operator(isDeselect), cur);
    }
    assert appended == Joined(ts + [cur], op);
    assert |appended| > 0 && appended[|appended| - 1] == cur;
  }

  /** Joining one more term onto a join of two or more terms extends it; no nesting is needed. */
  lemma {:induction false} JoinFreshTerm(ts: seq<J>, op: string, cur: J)
    requires |ts| > 0
    ensures AddFilterOperator(Joined(ts, JStr(op)), op) + [cur] == Joined(ts + [cur], JStr(op))
  {
    var s := Joined(ts, JStr(op));
    if |s| > 1 {
      assert s[1] == JStr(op);
    }
    assert AddFilterOperator(s, op) == s + [JStr(op)];
    JoinedAppend(ts, JStr(op), cur);
  }

  lemma DistinctSplit(done: seq<J>, keys: seq<J>)
    requires Distinct(done + keys) && |keys| > 0
    ensures keys[0] !in done
    ensures Distinct((done + [keys[0]]) + keys[1..])
  {
    assert (done + [keys[0]]) + keys[1..] == done + keys;
    forall i | 0 <= i < |done|
      ensures done[i] != keys[0]
    {
      assert (done + keys)[i] == done[i];
      assert (done + keys)[|done|] == keys[0];
    }
  }

  /** Toggling fresh, pairwise different single-field keys in order joins their terms. */
  lemma {:induction false} ToggleEachJoins(o: Options, field: string, done: seq<J>, keys: seq<J>, isDeselect: bool)
    requires Ready(o) && SingleField(o, field)
    requires HoldsJoined(o.selectionFilter, field, done, isDeselect)
    requires Distinct(done + keys)
    ensures HoldsJoined(ToggleEach(o, keys, isDeselect).selectionFilter, field, done + keys, isDeselect)
    decreases |keys|
  {
    if |keys| == 0 {
      assert done + keys == done;
    } else {
      var k := keys[0];
      var rest := keys[1..];
      var done' := done + [k];
      assert done' + rest == done + keys;
      assert ToggleEach(o, keys, isDeselect) == ToggleEach(Toggle(o, k, isDeselect), rest, isDeselect);
      DistinctSplit(done, keys);
      var p := KeyPredicate(o, k);
      assert p == [JStr(field), Equal, k];
      MergeFreshKey(o.selectionFilter, field, done, k, isDeselect);
      var o1 := Toggle(o, k, isDeselect);
      assert o1.selectionFilter == AddSelectionFilter(o.selectionFilter, isDeselect, p, true);
      assert HoldsJoined(o1.selectionFilter, field, done', isDeselect);
      assert Ready(o1) && SingleField(o1, field);
      assert Distinct(done' + rest);

      ToggleEachJoins(o1, field, done', rest, isDeselect);
    }
  }

  /**
    `setSelectedItems` with pairwise different keys of a single-field key stores exactly their
    disjunction `[p1, "or", p2, ...]` (the bare leaf for one key, `null` for none).
   */
  lemma SetSelectedItemsIsDisjunction(o: Options, field: string, keys: seq<J>)
    requires SingleField(o, field) && Distinct(keys)
    ensures HoldsJoined(SetSelectedItems(o, keys).selectionFilter, field, keys, false)
    ensures |keys| > 0 ==> (SetSelectedItems(o, keys).selectionFilter == Normalize(Joined(Terms(field, keys, false), Or)))
  {
    if |keys| > 0 {
      ToggleEachJoins(o.(selectionFilter := JNull), field, [], keys, false);
      assert [] + keys == keys;
    }
  }

  /**
    `selectedItemKeys` without preserving and without select-all stores the join of the keys' terms:
    a disjunction of leaves when selecting, a conjunction of negated leaves when deselecting.
   */
  lemma SelectedItemKeysIsJoin(o: Options, field: string, keys: seq<J>, isDeselect: bool)
    requires SingleField(o, field) && Distinct(keys)
    ensures HoldsJoined(SelectedItemKeys(o, keys, false, isDeselect, false).selectionFilter, field, keys, isDeselect)
  {
    if |keys| > 0 {
      ToggleEachJoins(o.(selectionFilter := JArr([])), field, [], keys, isDeselect);
      assert [] + keys == keys;
    }
  }
}

=== FILE: sub_filter.dfy ===
/**
  Structural lookup of a sub-expression among the top-level elements of a
  denormalized filter (`_findSubFilter`, `_hasSameFilter`, `_isLastSubFilter`).
 */
module SubFilter {
  import opened Json

  /** `JSON.stringify(subFilter) === JSON.stringify(filter)`, guarded by the truthiness test on `subFilter`. */
  predicate Matches(sub: J, filter: J) {
    Truthy(sub) && sub == filter
  }

  /** The scan of `_findSubFilter` from position `from` on. */
  function FindFrom(s: seq<J>, filter: J, from: nat): (r: int)
    requires from <= |s|
    ensures r == -1 || from <= r < |s|
    ensures r >= 0 ==> Matches(s[r], filter) && forall j | from <= j < r :: !Matches(s[j], filter)
    ensures r == -1 <==> forall j | from <= j < |s| :: !Matches(s[j], filter)
    decreases |s| - from
  {
    if from == |s| then -1
    else if Matches(s[from], filter) then from
    else FindFrom(s, filter, from + 1)
  }

  /** `_findSubFilter`: the index of the FIRST top-level element equal to `filter`, or -1. */
  function FindSubFilter(s: seq<J>, filter: J): (r: int)
    ensures -1 <= r < |s|
    ensures r >= 0 ==> s[r] == filter && Truthy(filter) && forall j | 0 <= j < r :: s[j] != filter
    ensures r == -1 <==> !Truthy(filter) || filter !in s
  {
    FindFrom(s, filter, 0)
  }

  /** `_hasSameFilter`: a truthy filter is found exactly when it is a top-level element. */
  function HasSameFilter(s: seq<J>, filter: J): (b: bool)
    ensures b <==> Truthy(filter) && filter in s
  {
    FindSubFilter(s, filter) >= 0
  }

  /**
    `_isLastSubFilter` as the source writes it: the first occurrence of `filter` must be the
    last element. On an empty sequence the index -1 equals `length - 1`, so it holds there too.
   */
  function IsLastSubFilterAsWritten(s: seq<J>, filter: J): (b: bool)
    ensures b <==> (Truthy(filter) && (|s| == 0 || (s[|s| - 1] == filter && filter !in s[..|s| - 1])))
  {
    Truthy(filter) && FindSubFilter(s, filter) == |s| - 1
  }

  /**
    `_isLastSubFilter` corrected: a filter is also "last" when it is the whole, un-wrapped
    compound (the case a compound base filter produces after select-all).
   */
  function IsLastSubFilter(s: seq<J>, filter: J): (b: bool)
    ensures b <==> IsLastSubFilterAsWritten(s, filter) || (Truthy(filter) && JArr(s) == filter)
  {
    IsLastSubFilterAsWritten(s, filter) || FindSubFilter([JArr(s)], filter) == 0
  }
}
